=== FILE: README.md ===
# MRO data mirror: decision logic in Dafny

The repository mirrors one HTTP file server that serves Apache-style
directory listings. It has three Python entry points:

- the `MRODataAPI` class (`scripts/mro_api.py`) mirrors all FITS files of one
  date concurrently;
- `scripts/download_fits.py` does the same sequentially;
- `scripts/list_available_days.py` lists the date directories.

Under the HTTP and HTML plumbing sits a small amount of pure decision logic.
This project models that logic and proves properties of it.

- **Listing filters.** The `href`s of the first `<pre>` block are reduced to
  names. The files filter keeps `.fits` links in server order. The
  directories filter keeps sub-directory links other than `../`, strips their
  trailing slashes, keeps eight-digit names and sorts them. Both are
  instances of one in-order filter-map, `Listing.Collect`. A companion
  function `Listing.Positions` names the anchor positions it keeps. The
  lemmas about those positions pin the result down exactly: order,
  multiplicity, soundness and completeness. Each source file's parser is
  modelled as the loop it is and proved equal to these reference filters.
- **Base-URL normalisation.** A trailing `/` is appended when missing
  (`Text.WithTrailingSlash`).
- **Skip-or-fetch decision.** `MroApi.CheckFileExists` models the async
  client's check. `DownloadFits.SkipsLocalCopy` models the script's inline
  check. Given the same HEAD answer and GET result for a file, they are
  proved to decide differently exactly when the script skips the file on
  the strength of an error-status HEAD response that declares the local
  size; they agree in every other case. The two clients' HTTP calls differ
  in redirect and timeout handling, so on a real server they need not see
  the same answers (see "Left out").
- **Outcome aggregation.** Per-file outcomes are folded into
  downloaded/skipped/failed counts (`Outcomes.Tally`). Each counter equals
  the number of occurrences of its outcome. So the counts add up to the
  number of files and do not depend on completion order. The async variant's
  `(filename, success, reason)` tuples and the sequential variant's counter
  loop are both proved to produce these counts.
- **Date-argument validation.** The argument must be exactly eight ASCII
  digits (`DownloadFits.ValidDateArgument`). In this ASCII model it is
  proved to agree with the directories filter. Python's regex and
  `str.isdigit` accept different sets of strings, so the source's two
  checks do not agree in general (see "Left out").

Inputs from the outside world are plain values (module `Remote`):

- the parsed `<pre>` anchors: `Page`, a sequence of `Option<string>`;
- a listing GET: `Fetch`;
- a HEAD probe: `HeadProbe`;
- for each file name, a `FileEnv`: whether the local file exists, its size,
  the HEAD answer, whether the streamed GET succeeds, and how many bytes a
  successful GET writes.

The concurrent `asyncio.gather` becomes an in-order evaluation of the
per-file tasks. That is the order `gather` returns results in.

The two day listers treat a failed request differently.
`list_available_days.py` returns `[]` both on a request error and for a
listing without dates (scripts/list_available_days.py:76-78, 125-130), so
the two cases are indistinguishable
(`ListAvailableDays.ErrorIndistinguishableFromEmpty`). The API's
`list_available_days` re-raises the error (scripts/mro_api.py:108-111), so
for it the two cases differ (`MroApi.ErrorDistinguishableFromEmpty`).

A missing `content-length` header reads as a length of 0
(`Remote.DeclaredLength`), never as a failed probe. With a local file
present and a successful HEAD, the async check then answers "not skipped,
incomplete" with an expected size of 0 (`MroApi.CheckFileExists`), and the
file is downloaded again.

## Model

| member | source | states |
|---|---|---|
| Text.RStrip | scripts/list_available_days.py:41 | `rstrip('/')` returns the longest prefix that does not end with `/`, and everything it removes is `/` |
| Text.RStripAppended | scripts/list_available_days.py:41 | stripping undoes appending one trailing character to a string that did not end with it |
| Text.WithTrailingSlash | scripts/list_available_days.py:61-62 | the normalised URL ends with `/`, extends the input by at most that one character, and equals the input iff the input already ended with `/` |
| Text.WithTrailingSlashIdempotent | scripts/list_available_days.py:61-62 | normalising twice is the same as normalising once |
| Text.LexLeTransitive | scripts/mro_api.py:74 | Python's code-point order on `str` is transitive (with LexLeTotal and LexLeAntisymmetric, a total order, which `sorted` relies on) |
| Text.LexLeTotal | scripts/mro_api.py:74 | any two strings are comparable under Python's `str` order |
| Text.LexLeAntisymmetric | scripts/mro_api.py:74 | two strings each `<=` the other are equal |
| Text.LexLeIsNumericOrder | scripts/list_available_days.py:42-45 | on equal-length digit strings, string order coincides with numeric order, so sorting YYYYMMDD names sorts them by date |
| Sorting.Sort | scripts/mro_api.py:74 | `sorted` yields a sorted permutation of its input |
| Sorting.SortedPermutationUnique | scripts/mro_api.py:74 | two sorted permutations of one list are equal, so any correct sort of the names gives the same list |
| Listing.FitsName | scripts/mro_api.py:58-66 | an anchor contributes a name only if its `href` is present, non-empty and ends in `.fits`, and the name is the `href` itself |
| Listing.DateName | scripts/mro_api.py:58-72 | an anchor contributes a name only if it is eight digits and is the slash-stripped `href` of a sub-directory link other than `../` |
| Listing.CollectMembership | scripts/mro_api.py:57-72 | a name is appended by the anchor loop iff some anchor is accepted with that name |
| Listing.PositionsMatch | scripts/mro_api.py:58-72 | the k-th appended name is the one extracted from the anchor at the k-th kept position |
| Listing.PositionsIncrease | scripts/mro_api.py:58-72 | kept positions strictly increase: document order is preserved and no anchor is used twice |
| Listing.PositionsComplete | scripts/mro_api.py:58-72 | every accepted anchor's position is kept: nothing accepted is dropped |
| Listing.FitsFilesAreTheFitsLinks | scripts/mro_api.py:59-66 | in files mode a name is listed iff it is non-empty, ends with `.fits`, and is the `href` of some anchor |
| Listing.FitsFilesInServerOrder | scripts/mro_api.py:63-66 | the files result is exactly the in-order subsequence of `.fits` anchors, one entry per anchor |
| Listing.FitsFilesNotSorted | scripts/mro_api.py:74 | files mode keeps server order even when it is unsorted (`b.fits` before `a.fits`), skipping anchors without `href` and non-FITS links |
| Listing.DateDirectoriesSound | scripts/mro_api.py:67-72 | every listed directory name has eight digits and is the slash-stripped `href` of a sub-directory anchor other than `../` |
| Listing.DateDirectoriesComplete | scripts/mro_api.py:67-72 | every sub-directory anchor whose stripped name has eight digits is listed |
| Listing.DateDirectoriesSortedPermutation | scripts/mro_api.py:74 | the directories result is sorted, is a permutation of the filtered names, and is the only such list |
| Listing.DateDirectoriesChronological | scripts/list_available_days.py:45 | adjacent listed dates are in non-decreasing numeric (calendar) order |
| Listing.DoubleSlashStripped | scripts/list_available_days.py:39-43 | `20250101//` lists as `20250101`; `../` and a seven-digit name are excluded |
| Outcomes.Tally | scripts/mro_api.py:257-266 | the three counters after folding the outcomes in arrival order (its meaning is stated by TallyCountsOccurrences) |
| Outcomes.TallyCountsOccurrences | scripts/mro_api.py:257-266 | each counter equals the number of occurrences of its outcome |
| Outcomes.TallyConserves | scripts/mro_api.py:257-273 | downloaded + skipped + failed equals the number of per-file outcomes |
| Outcomes.TallyOrderIndependent | scripts/mro_api.py:251-254 | reordering the outcomes, as task completion order might, leaves the counts unchanged |
| Outcomes.TallyAllSkipped | scripts/mro_api.py:257-266 | a run whose every outcome is a skip counts zero downloads and zero failures |
| MroApi.NewApi | scripts/mro_api.py:36-39 | after construction `base_url` ends with `/`, and an input already ending with `/` is kept unchanged |
| MroApi.NewApiIdempotent | scripts/mro_api.py:36-39 | constructing from an already normalised base URL yields the same API |
| MroApi.VisitAnchor | scripts/mro_api.py:58-72 | one pass of the anchor loop extends the names collected so far by exactly the name the current anchor contributes in the current mode |
| MroApi.AnchorName | scripts/mro_api.py:58-72 | one anchor contributes exactly the name the files filter or the directories filter gives it, by mode, and nothing in any other mode |
| MroApi.ParseDirectoryListing | scripts/mro_api.py:41-74 | the anchor loop returns the `.fits` names in server order in "files" mode, the sorted eight-digit directory names in "directories" mode, and nothing for any other mode |
| MroApi.CheckFileExists | scripts/mro_api.py:146-159 | `(False, None)` when the file is absent or `force` is set; otherwise a reason is always given, a skip happens iff a successful HEAD declares a positive length equal to the local size, a successful HEAD that does not confirm the size gives "incomplete" with the declared and local sizes, and a failed probe gives "could not verify" |
| MroApi.CheckIgnoresProbeWhenAbsentOrForced | scripts/mro_api.py:146-147 | with no local file or with `force`, the answer does not depend on the HEAD probe at all, and nothing is skipped |
| MroApi.RunTask | scripts/mro_api.py:232-248 | a task reports a skip iff the check says skip, and a skip reports success with the check's reason; otherwise its success is the download's result and its note is "downloaded" exactly when the download succeeded |
| MroApi.SkippedTaskNeverFetches | scripts/mro_api.py:240-248 | for a skipped file the task result is the same whatever the download would have done |
| MroApi.ClassifyRecoversOutcome | scripts/mro_api.py:257-266 | counting a task's result tuple yields that file's intended outcome; no skip reason is mistaken for "downloaded" |
| MroApi.FirstRaised | scripts/mro_api.py:254-257 | reports an exception exactly when some gathered element is one, and the one it reports is the first in list order, the one at which unpacking fails |
| MroApi.Aggregate | scripts/mro_api.py:254-298 | without exceptions the counts sum to the number of results, `total` is as given, and `success` holds iff nothing failed; each result tuple is counted under the class its `(success, reason)` gives it (`Classified`); an exception element yields `success=False`, zero downloaded, skipped, failed and total, and the unpacking error of the first exception in list order |
| MroApi.DownloadDateData | scripts/mro_api.py:187-298 | a result without error comes from a fetched, non-empty listing and a non-negative concurrency bound, with `total` equal to the number of files, counts summing to `total`, and `success` iff `failed == 0`; an error result is unsuccessful with zero counts; a negative bound on a non-empty listing gives the semaphore's `ValueError` text |
| MroApi.EmptyListingIsFailure | scripts/mro_api.py:213-222 | an empty file list yields `success=False`, all counts and total 0, and the "No FITS files found" error |
| MroApi.DownloadDateDataCountsOutcomes | scripts/mro_api.py:240-275 | for a non-empty listing the reported counts are the tally of each file's intended outcome (skip per the check, else download or failure per the fetch) |
| MroApi.ForceSkipsNothing | scripts/mro_api.py:146-147 | with `force` set the skipped count is zero |
| MroApi.AfterRun | scripts/mro_api.py:175-182 | a downloaded file exists locally with the size the GET wrote; a skipped file's local state is unchanged |
| MroApi.RerunSkipsFile | scripts/mro_api.py:146-155 | a file whose HEAD succeeds with a positive length, and that did not fail, is skipped on the next run without `force` exactly when it was skipped this time or the GET wrote the declared length |
| MroApi.SecondRunSkipsEverything | scripts/mro_api.py:240-275 | after a successful run in which every HEAD succeeded with a positive length that the GET delivered in full, a second run downloads nothing and skips every file |
| MroApi.AvailableDays | scripts/mro_api.py:96-111 | a failed request is re-raised, never an empty list; otherwise the result is sorted, holds only eight-digit names, and is a permutation of the date directories found at the base URL |
| MroApi.ErrorDistinguishableFromEmpty | scripts/mro_api.py:103-111 | an unreachable server raises, while a listing with no date directories returns `[]` |
| MroApi.FilesForDate | scripts/mro_api.py:113-132 | `<base_url><date>/` is requested; a failed request is re-raised; otherwise a name is listed iff it is a non-empty `.fits` `href` of the date's page, and the list is the files filter's, in server order |
| MroApi.DownloadDateDataFollowsFilesForDate | scripts/mro_api.py:202-230 | the mirror reports the listing's exception text when the listing fails, "No FITS files found" when it is empty, the semaphore's error for a negative bound, and otherwise one counted outcome per listed file |
| MroApi.MirrorDate | scripts/mro_api.py:308-313 | the module-level wrapper returns True exactly when the listing at the normalised URL arrived, is not empty, `max_concurrent` is not negative, and no file's download failed |
| MroApi.Classify | scripts/mro_api.py:257-266 | the counter a task's `(filename, success, reason)` tuple increments (its meaning is stated by ClassifyRecoversOutcome) |
| DownloadFits.ParseDirectoryListing | scripts/download_fits.py:17-38 | returns exactly the non-empty `.fits` hrefs of the `<pre>` block, in document order |
| DownloadFits.SkipsLocalCopy | scripts/download_fits.py:127-137 | the loop's skip test: a local copy exists, `force` is off, and a HEAD response, of any status, declares a positive length equal to the local size (its relation to the API's check is LoopDiffersFromApiExactly) |
| DownloadFits.ShouldSkip | scripts/download_fits.py:127-137 | the iteration's skip flag is set exactly when SkipsLocalCopy holds |
| DownloadFits.LoopOutcome | scripts/download_fits.py:127-147 | the counter one iteration increments: skipped, else downloaded or failed by the result of `download_file` |
| DownloadFits.AttemptedMembers | scripts/download_fits.py:127-147 | a file is handed to `download_file` iff it is listed and not skipped |
| DownloadFits.AttemptedCount | scripts/download_fits.py:127-147 | the number of `download_file` calls equals the downloaded count plus the failed count |
| DownloadFits.VisitFile | scripts/download_fits.py:127-147 | one iteration moves exactly the counter of the file's outcome by one, and appends the file to the attempted ones iff it is not skipped |
| DownloadFits.DownloadFiles | scripts/download_fits.py:116-147 | each iteration increments exactly one counter, so the three sum to the number of files; each counter is the tally of the per-file outcomes, and the files that reach the download are exactly the non-skipped ones, in order |
| DownloadFits.DownloadDateData | scripts/download_fits.py:79-174 | a failed listing returns False without downloading; otherwise the counts cover every listed file, and the result is True iff the list is non-empty and nothing failed |
| DownloadFits.ForceFetchesEverything | scripts/download_fits.py:127 | with `force` set every listed file reaches the download |
| DownloadFits.ForceSkipsNothing | scripts/download_fits.py:127-137 | with `force` set the skipped count is zero |
| DownloadFits.HeadFailureFallsThrough | scripts/download_fits.py:140-147 | a HEAD request that raises leads to a download attempt, whose result decides between downloaded and failed |
| DownloadFits.LoopAgreesWithApi | scripts/download_fits.py:127-147 | when the HEAD request raised or answered 2xx, the loop and the async task decide the same outcome |
| DownloadFits.LoopDivergesFromApiOnErrorStatus | scripts/download_fits.py:130-134 | an error-status HEAD whose `content-length` equals the local size is a skip for the loop but a re-download for the async client |
| DownloadFits.LoopDiffersFromApiExactly | scripts/download_fits.py:127-137 | the loop and the async task decide differently for a file exactly when the loop skips it on an error-status HEAD response |
| DownloadFits.SameOutcomesAsApi | scripts/download_fits.py:127-147 | file by file, when no HEAD answers with an error status, the loop's outcomes are the async tasks' outcomes |
| DownloadFits.SameCountsAsApi | scripts/download_fits.py:116-167 | for a base URL without trailing slash and a positive concurrency bound, both variants request the same listing and, barring error-status HEADs, report the same counts, with the loop's boolean equal to the API's `success` |
| DownloadFits.ValidDateArgument | scripts/download_fits.py:189-191 | the date argument check: exactly eight ASCII digits; in this ASCII model it agrees with the directories filter (ValidDateArgumentIsListedName) |
| DownloadFits.ValidDateArgumentIsListedName | scripts/download_fits.py:189-191 | the date argument is accepted iff the directories filter would list the link `arg/` under the name `arg`, that is, iff it is exactly eight digits |
| ListAvailableDays.ParseDirectoryListing | scripts/list_available_days.py:21-45 | returns the eight-digit, slash-stripped names of sub-directory links other than `../`, sorted |
| ListAvailableDays.ListAvailableDaysAsync | scripts/list_available_days.py:48-130 | the result is sorted, every entry is an eight-digit name, it is a permutation of the names found at the normalised URL, and it is empty when the request fails |
| ListAvailableDays.BaseUrlNormalisedBeforeUse | scripts/list_available_days.py:61-62 | only the slash-normalised URL is requested: the result depends on the server's answer there alone |
| ListAvailableDays.ErrorIndistinguishableFromEmpty | scripts/list_available_days.py:76-130 | an unreachable server and a listing with no date directories both return `[]` |
| ListAvailableDays.ListedDatesAreValidArguments | scripts/list_available_days.py:42-43 | every listed date passes the downloader's date-argument check |
| ListAvailableDays.SameDatesAsApi | scripts/mro_api.py:302-305 | the module-level `list_available_days` lists the same dates as the script when the request succeeds; when it fails the API raises where the script returns `[]` |

## Left out

- HTTP and streaming: `_make_request`, the chunked writes of `download_file`, and `time.sleep`. A page fetch is a `Fetch`, a HEAD probe a `HeadProbe`, and a download's result a boolean.
- HTML parsing: BeautifulSoup locating the first `<pre>` tag is replaced by the `Page` input.
- Concurrency: tasks are evaluated in list order, the order `gather` returns them in. For a positive `max_concurrent` the semaphore only bounds how many downloads run at once, so its value does not change the result. A negative value is modelled: `asyncio.Semaphore` raises `ValueError` at scripts/mro_api.py:230, and the handler at :289 turns that into a zero-count error result. A bound of 0 is not modelled (next two lines).
- MroApi.DownloadDateData: with `max_concurrent == 0` every task that is not skipped waits at `async with semaphore` (scripts/mro_api.py:245) forever, so the call never returns unless every file is skipped. The model is a total function and answers a bound of 0 as it answers a positive one. That answer is right only when every file is skipped. Its count lemmas (DownloadDateDataCountsOutcomes, DownloadDateDataFollowsFilesForDate, SecondRunSkipsEverything, ForceSkipsNothing) state the model's answer for a bound of 0 in the same sense.
- MroApi.MirrorDate: the module-level wrapper passes `max_concurrent` through unchecked (scripts/mro_api.py:308-313). With 0 the real call hangs whenever some file is not skipped, while the model returns a value as for a positive bound. The v2 command line rejects values below 1, but it is not part of this model.
- Filesystem calls: `Path.exists` and `stat` are the `localExists` and `localSize` inputs. An exception from `stat` inside the async check's `try` has the same effect as a failed probe (`HeadFailed`). `Path.mkdir`, which runs outside the `try` at scripts/mro_api.py:206, is not modelled; neither is an exception escaping the sequential loop's own statements.
- URL and path joining: `urljoin` for file URLs and `Path(output_dir) / date` are not modelled; the date directory is the `dateDir` input.
- MroApi.Aggregate: the `isinstance(results, Exception)` branch at scripts/mro_api.py:258 tests the list, not the element, and never fires. An exception element instead fails tuple unpacking and reaches the outer handler. The model handles that case, but `RunTask` itself never raises.
- MroApi.CheckFileExists: the reason strings with thousands-separated sizes are modelled as the `SkipReason` datatype carrying the same numbers, not as text.
- Text.IsDateName and DownloadFits.ValidDateArgument: both accept exactly eight ASCII digits `'0'..'9'`. The source's two checks are wider, and they are wider in different ways. Python's `str.isdigit` and regex `\d` accept non-ASCII digits, and `$` also matches before a trailing newline. So the model rejects some strings the source accepts, and it states as one test what the source does with two.
- DownloadFits.ValidDateArgumentIsListedName: holds for the ASCII model only. In the source, `re.match(r'^\d{8}$', ...)` (scripts/download_fits.py:189) accepts `"20250101\n"`, because `$` matches before a final newline. The directories filter drops the link `20250101\n/`, because its stripped name has length 9. Conversely, `"2025010²"` passes `str.isdigit` (scripts/list_available_days.py:42) but not `\d`, which matches only decimal digits.
- ListAvailableDays.ListedDatesAreValidArguments: holds for the ASCII model only. A directory named `2025010²` is listed by the source's filter (`str.isdigit` accepts `²`), but `re.match(r'^\d{8}$', ...)` rejects it as a date argument.
- HEAD answers: each variant's `HeadProbe` is the response as that client sees it. The async client's HEAD goes through `_make_request` and follows redirects (scripts/mro_api.py:92). `requests.head` does not follow them (scripts/download_fits.py:130). For the file GET it is the other way round: `requests.get` follows redirects, while the httpx stream GET does not (scripts/mro_api.py:175).
- DownloadFits.LoopAgreesWithApi: both variants are given one `FileEnv`, that is, the same HEAD answer and the same GET result. The real clients can see different ones. `requests.get` (scripts/download_fits.py:54) follows redirects and has no timeout, while the httpx stream GET (scripts/mro_api.py:174-176) follows no redirects and times out after httpx's default 5 s. A file served through a redirect, or more slowly than that, is downloaded by the loop and failed by the async client.
- DownloadFits.LoopDiffersFromApiExactly: assumes one `FileEnv` for both variants, as for LoopAgreesWithApi. A redirected or slow file GET, or a redirected HEAD, is a further source of difference that the lemma does not cover.
- DownloadFits.SameOutcomesAsApi: assumes one `FileEnv` for both variants, as for LoopAgreesWithApi. A redirected or slow file GET makes the loop report downloaded where the async task reports failed.
- DownloadFits.SameCountsAsApi: assumes one `FileEnv` for both variants, as for LoopAgreesWithApi. A redirected or slow file GET moves a file from the loop's downloaded count to the API's failed count.
- DownloadFits.SameCountsAsApi: both variants are also given one `server`, that is, the same answer to the listing GET. The script's `requests.get(date_url)` (scripts/download_fits.py:104) has no timeout. The API's `_make_request` (scripts/mro_api.py:91-93, called at :210) uses the 5 s default timeout of `httpx.AsyncClient()`. Suppose the listing answers after 6 s and lists `a.fits`, with no local copy and a successful GET. The script downloads 1 file and returns True. The API catches the `ReadTimeout` (:279) and returns `success=False` with all counts 0.
- Exception messages: the `Error accessing ...` and `Unexpected error: ...` prefixes that `list_available_days` and `get_files_for_date` add when re-raising are not modelled. `ListingRaised` carries the underlying exception's text.
- DownloadFits.DownloadFiles: each file name has one `FileEnv`, fixed before the loop starts. The loop's own writes are not fed back, so the model is exact only when the listing names each file once. When a name repeats, the real loop's second pass sees the file written by the first (scripts/download_fits.py:127 after :144) and may skip it. The model decides it afresh.
- DownloadFits.DownloadDateData: inherits the fixed per-name local state of DownloadFiles, so its counts are exact only for a listing of distinct names.
- DownloadFits.SameCountsAsApi: holds for listings of distinct names. With a repeated name the sequential loop can see its own earlier write, and the async tasks race on the same path, so the two variants' counts need not agree.
- MroApi.DownloadDateData: the per-file tasks are evaluated against the same fixed local state. With a repeated name the concurrent tasks write the same path in an unspecified order, which is not modelled.
- MroApi.AfterRun: after a failed download the local file is taken as unchanged. A GET that fails mid-stream leaves a truncated file instead. RerunSkipsFile and SecondRunSkipsEverything only concern runs without failures, so they do not depend on this.
- Presentation and command-line code: console output, the rich tables, `strptime` formatting, argparse handling, the `--output` file of the day lister, `scripts/mro_display.py`, the `_v2` wrappers and the example scripts.

=== FILE: download_fits.dfy ===
/**
 * The sequential downloader script: its listing parser, its
 * skip/download/count loop and the boolean it returns, and the check
 * `main` applies to the date argument. Requests, the progress output and
 * the politeness delay are not modelled; `server` answers the listing GET
 * and `env` describes each file.
 */
module DownloadFits {
  import opened Text
  import opened Remote
  import opened Listing
  import opened Outcomes
  import MroApi

  /**
   * `parse_directory_listing`: the present `<pre>` hrefs that end in
   * `.fits`, appended in document order.
   */
  method ParseDirectoryListing(page: Page) returns (files: seq<string>)
    ensures files == FitsFiles(page)
  {
    files := [];
    var links := Links(page);
    var i := 0;
    while i < |links|
      invariant 0 <= i <= |links|
      invariant files == Collect(FitsName, links[..i])
    {
      assert links[..i + 1][..i] == links[..i];
      var href := links[i];
      if href.Some? && href.value != "" && EndsWith(href.value, ".fits") {
        files := files + [href.value];
      }
      i := i + 1;
    }
    assert links[..|links|] == links;
  }

  /**
   * The skip test inside the loop: the local file exists, `force` is off,
   * and the HEAD response declares a positive length equal to the local
   * size. The response's status is not checked (`requests.head` does not
   * raise on an error status).
   */
  predicate SkipsLocalCopy(env: FileEnv, force: bool) {
    env.localExists && !force && env.head.HeadResponse? &&
    DeclaredLength(env.head.contentLength) > 0 &&
    env.localSize == DeclaredLength(env.head.contentLength)
  }

  /** The outcome the loop gives one file. */
  function LoopOutcome(env: FileEnv, force: bool): FileOutcome {
    if SkipsLocalCopy(env, force) then Skipped
    else if env.fetchOk then Downloaded
    else Failed
  }

  function LoopOutcomes(files: seq<string>, env: string -> FileEnv, force: bool): (os: seq<FileOutcome>)
    ensures |os| == |files|
    ensures forall i :: 0 <= i < |files| ==> os[i] == LoopOutcome(env(files[i]), force)
  {
    seq(|files|, i requires 0 <= i < |files| => LoopOutcome(env(files[i]), force))
  }

  /** The files the loop hands to `download_file`, in list order. */
  function Attempted(files: seq<string>, env: string -> FileEnv, force: bool): seq<string>
    decreases |files|
  {
    if |files| == 0 then []
    else
      var init := Attempted(files[..|files| - 1], env, force);
      if SkipsLocalCopy(env(files[|files| - 1]), force) then init else init + [files[|files| - 1]]
  }

  /** A file is handed to the download iff it is listed and not skipped. */
  lemma {:induction false} AttemptedMembers(files: seq<string>, env: string -> FileEnv, force: bool, u: string)
    ensures u in Attempted(files, env, force) <==> u in files && !SkipsLocalCopy(env(u), force)
    decreases |files|
  {
    if |files| > 0 {
      var n := |files| - 1;
      AttemptedMembers(files[..n], env, force, u);
      assert files == files[..n] + [files[n]];
    }
  }

  /**
   * One more file: its outcome joins the tally, and it joins the attempted
   * files unless it is skipped.
   */
  lemma LoopStep(files: seq<string>, i: nat, env: string -> FileEnv, force: bool)
    requires i < |files|
    ensures Tally(LoopOutcomes(files[..i + 1], env, force))
      == Tally(LoopOutcomes(files[..i], env, force)).Add(LoopOutcome(env(files[i]), force))
    ensures Attempted(files[..i + 1], env, force) ==
      if SkipsLocalCopy(env(files[i]), force) then Attempted(files[..i], env, force)
      else Attempted(files[..i], env, force) + [files[i]]
  {
    var os := LoopOutcomes(files[..i], env, force);
    assert LoopOutcomes(files[..i + 1], env, force) == os + [LoopOutcome(env(files[i]), force)];
    TallySnoc(os, LoopOutcome(env(files[i]), force));
    assert files[..i + 1][..i] == files[..i];
  }

  /** The files that reach the download are the ones counted as downloaded or failed. */
  lemma {:induction false} AttemptedCount(files: seq<string>, env: string -> FileEnv, force: bool)
    ensures |Attempted(files, env, force)| ==
      Tally(LoopOutcomes(files, env, force)).downloaded + Tally(LoopOutcomes(files, env, force)).failed
    decreases |files|
  {
    if |files| > 0 {
      var n := |files| - 1;
      AttemptedCount(files[..n], env, force);
      LoopStep(files, n, env, force);
      assert files[..n + 1] == files;
    }
  }

  /**
   * The skip test of one loop iteration: the local file exists, `force` is
   * off, and a HEAD response declares its size.
   */
  method ShouldSkip(file: FileEnv, force: bool) returns (skip: bool)
    ensures skip <==> SkipsLocalCopy(file, force)
  {
    skip := false;
    if file.localExists && !force {
      match file.head
      case HeadFailed =>
      case HeadResponse(_, contentLength) =>
        var expectedSize := DeclaredLength(contentLength);
        if expectedSize > 0 && file.localSize == expectedSize {
          skip := true;
        }
    }
  }

  /**
   * One iteration of the loop over the listed files: skip the file, or hand
   * it to `download_file` and count the result.
   */
  method VisitFile(filename: string, file: FileEnv, force: bool,
                   downloaded: nat, skipped: nat, failed: nat, fetched: seq<string>)
    returns (downloaded': nat, skipped': nat, failed': nat, fetched': seq<string>)
    ensures Counts(downloaded', skipped', failed') == Counts(downloaded, skipped, failed).Add(LoopOutcome(file, force))
    ensures fetched' == if SkipsLocalCopy(file, force) then fetched else fetched + [filename]
  {
    downloaded', skipped', failed', fetched' := downloaded, skipped, failed, fetched;
    var skip := ShouldSkip(file, force);
    if skip {
      skipped' := skipped + 1;
    } else {
      fetched' := fetched + [filename];
      if file.fetchOk {
        downloaded' := downloaded + 1;
      } else {
        failed' := failed + 1;
      }
    }
  }

  /**
   * The body of `download_date_data` after the listing: walks the files in
   * order and counts each exactly once, as skipped, downloaded or failed.
   * `fetched` records the files that reached `download_file`.
   */
  method DownloadFiles(files: seq<string>, env: string -> FileEnv, force: bool)
    returns (downloaded: nat, skipped: nat, failed: nat, fetched: seq<string>)
    ensures downloaded + skipped + failed == |files|
    ensures Counts(downloaded, skipped, failed) == Tally(LoopOutcomes(files, env, force))
    ensures fetched == Attempted(files, env, force)
    ensures |fetched| == downloaded + failed
  {
    downloaded, skipped, failed, fetched := 0, 0, 0, [];
    var i := 0;
    while i < |files|
      invariant 0 <= i <= |files|
      invariant Counts(downloaded, skipped, failed) == Tally(LoopOutcomes(files[..i], env, force))
      invariant fetched == Attempted(files[..i], env, force)
    {
      LoopStep(files, i, env, force);
      downloaded, skipped, failed, fetched := VisitFile(files[i], env(files[i]), force, downloaded, skipped, failed, fetched);
      i := i + 1;
    }
    assert files[..|files|] == files;
    TallyConserves(LoopOutcomes(files, env, force));
    AttemptedCount(files, env, force);
  }

  /**
   * `download_date_data`: lists the date's directory and downloads its
   * files. Returns false for a failed listing or an empty one, otherwise
   * whether nothing failed.
   */
  method DownloadDateData(baseUrl: string, date: string, force: bool,
                          server: string -> Fetch, env: string -> FileEnv)
    returns (ok: bool, downloaded: nat, skipped: nat, failed: nat, fetched: seq<string>)
    ensures server(baseUrl + "/" + date + "/").FetchFailed? ==>
      !ok && fetched == [] && downloaded == skipped == failed == 0
    ensures server(baseUrl + "/" + date + "/").Fetched? ==>
      var files := FitsFiles(server(baseUrl + "/" + date + "/").page);
      && downloaded + skipped + failed == |files|
      && Counts(downloaded, skipped, failed) == Tally(LoopOutcomes(files, env, force))
      && fetched == Attempted(files, env, force)
      && (ok <==> |files| > 0 && failed == 0)
  {
    var dateUrl := baseUrl + "/" + date + "/";
    match server(dateUrl)
    case FetchFailed(_) =>
      return false, 0, 0, 0, [];
    case Fetched(page) =>
      var files := ParseDirectoryListing(page);
      if |files| == 0 {
        return false, 0, 0, 0, [];
      }
      downloaded, skipped, failed, fetched := DownloadFiles(files, env, force);
      ok := failed == 0;
  }

  /** With `force` set every listed file is handed to the download. */
  lemma {:induction false} ForceFetchesEverything(files: seq<string>, env: string -> FileEnv)
    ensures Attempted(files, env, true) == files
    decreases |files|
  {
    if |files| > 0 {
      var n := |files| - 1;
      ForceFetchesEverything(files[..n], env);
      assert files == files[..n] + [files[n]];
    }
  }

  /** With `force` set nothing is counted as skipped. */
  lemma ForceSkipsNothing(files: seq<string>, env: string -> FileEnv)
    ensures Tally(LoopOutcomes(files, env, true)).skipped == 0
  {
    var os := LoopOutcomes(files, env, true);
    assert forall i :: 0 <= i < |os| ==> os[i] != Skipped;
    assert Skipped !in multiset(os);
    TallyCountsOccurrences(os);
  }

  /** A HEAD request that raises leads to a download attempt, not a failure. */
  lemma HeadFailureFallsThrough(env: FileEnv, force: bool)
    requires env.head.HeadFailed?
    ensures LoopOutcome(env, force) == if env.fetchOk then Downloaded else Failed
  {
  }

  /**
   * Whenever the HEAD request raised or answered 2xx, the loop and the
   * API's per-file task decide the same outcome.
   */
  lemma LoopAgreesWithApi(env: FileEnv, force: bool)
    requires !(env.head.HeadResponse? && !env.head.success)
    ensures LoopOutcome(env, force) == MroApi.ExpectedOutcome(env, force)
  {
  }

  /**
   * On an error status whose `content-length` equals the local size the
   * two variants part ways: the loop skips, the API re-downloads.
   */
  lemma LoopDivergesFromApiOnErrorStatus()
    ensures var env := FileEnv(true, 196, HeadResponse(false, Some(196)), true, 196);
      LoopOutcome(env, false) == Skipped && MroApi.ExpectedOutcome(env, false) == Downloaded
  {
  }

  /**
   * The two variants decide differently for one file exactly when the loop
   * skips it on the strength of an error-status HEAD response: the loop
   * never checks the status, the API treats it as "could not verify".
   */
  lemma LoopDiffersFromApiExactly(env: FileEnv, force: bool)
    ensures LoopOutcome(env, force) != MroApi.ExpectedOutcome(env, force) <==>
      SkipsLocalCopy(env, force) && !env.head.success
  {
  }

  /**
   * For a base URL without a trailing slash both variants request the same
   * listing URL and, when no HEAD answers with an error status, report the
   * same counts; the loop's boolean is the API's `success`. The API runs
   * with a positive concurrency bound, as its default of 5 is; the loop
   * has none.
   */
  lemma SameCountsAsApi(baseUrl: string, date: string, dateDir: string, force: bool, maxConcurrent: int,
                        server: string -> Fetch, env: string -> FileEnv)
    requires maxConcurrent >= 1
    requires !EndsWith(baseUrl, "/")
    requires server(baseUrl + "/" + date + "/").Fetched?
    requires var files := FitsFiles(server(baseUrl + "/" + date + "/").page);
      forall i :: 0 <= i < |files| ==> !(env(files[i]).head.HeadResponse? && !env(files[i]).head.success)
    ensures var files := FitsFiles(server(baseUrl + "/" + date + "/").page);
      var c := Tally(LoopOutcomes(files, env, force));
      var r := MroApi.DownloadDateData(MroApi.NewApi(baseUrl), date, dateDir, force, maxConcurrent, server, env);
      && Counts(r.downloaded, r.skipped, r.failed) == (if |files| == 0 then Counts(0, 0, 0) else c)
      && (r.success <==> |files| > 0 && c.failed == 0)
  {
    var api := MroApi.NewApi(baseUrl);
    assert api.baseUrl + date + "/" == baseUrl + "/" + date + "/";
    var files := FitsFiles(server(baseUrl + "/" + date + "/").page);
    if |files| > 0 {
      MroApi.DownloadDateDataCountsOutcomes(api, date, dateDir, force, maxConcurrent, server, env);
      SameOutcomesAsApi(files, env, force);
    }
  }

  /** File by file, the loop and the API agree when no HEAD answers with an error status. */
  lemma SameOutcomesAsApi(files: seq<string>, env: string -> FileEnv, force: bool)
    requires forall i :: 0 <= i < |files| ==> !(env(files[i]).head.HeadResponse? && !env(files[i]).head.success)
    ensures MroApi.ExpectedOutcomes(files, env, force) == LoopOutcomes(files, env, force)
  {
    forall i | 0 <= i < |files|
      ensures MroApi.ExpectedOutcomes(files, env, force)[i] == LoopOutcomes(files, env, force)[i]
    {
      LoopAgreesWithApi(env(files[i]), force);
    }
  }

  /** `re.match(r'^\d{8}$', date)`: exactly eight ASCII digits. */
  predicate ValidDateArgument(arg: string) {
    IsDateName(arg)
  }

  /**
   * The date argument is accepted exactly when the directories filter would
   * list a directory link `arg/` under the name `arg`: the two checks agree.
   */
  lemma ValidDateArgumentIsListedName(arg: string)
    ensures ValidDateArgument(arg) <==> DateName(Some(arg + "/")) == Some(arg)
  {
    var href := arg + "/";
    assert EndsWith(href, "/");
    if ValidDateArgument(arg) {
      RStripAppended(arg, '/');
      assert href != "../" by {
        assert href[0] != '.';
      }
    }
  }
}

=== FILE: list_available_days.dfy ===
/**
 * The date-listing script: its directory-listing parser and the decision
 * logic of `list_available_days_async` (normalise the base URL, fetch,
 * parse, and fall back to an empty list on any error). The rich table and
 * date formatting it prints are not modelled.
 */
module ListAvailableDays {
  import opened Text
  import opened Sorting
  import opened Remote
  import opened Listing
  import DownloadFits
  import MroApi

  /**
   * `parse_directory_listing`: appends, in document order, the stripped
   * names of sub-directory links (not `../`) that are eight digits, then
   * sorts them.
   */
  method ParseDirectoryListing(page: Page) returns (directories: seq<string>)
    ensures directories == DateDirectories(page)
  {
    directories := [];
    var links := Links(page);
    var i := 0;
    while i < |links|
      invariant 0 <= i <= |links|
      invariant directories == Collect(DateName, links[..i])
    {
      assert links[..i + 1][..i] == links[..i];
      var href := links[i];
      if href.Some? && href.value != "" && EndsWith(href.value, "/") && href.value != "../" {
        var dirName := RStrip(href.value, '/');
        if |dirName| == 8 && AllDigits(dirName) {
          directories := directories + [dirName];
        }
      }
      i := i + 1;
    }
    assert links[..|links|] == links;
    directories := Sort(directories);
  }

  /**
   * `list_available_days_async`: requests the base URL with a trailing
   * slash added when missing and returns the sorted date names found there;
   * every failure, like an empty listing, yields the empty list.
   */
  function ListAvailableDaysAsync(baseUrl: string, server: string -> Fetch): (dates: seq<string>)
    ensures Sorted(dates)
    ensures forall d :: d in dates ==> IsDateName(d)
    ensures server(WithTrailingSlash(baseUrl)).FetchFailed? ==> dates == []
    ensures server(WithTrailingSlash(baseUrl)).Fetched? ==>
      multiset(dates) == multiset(DateCandidates(server(WithTrailingSlash(baseUrl)).page))
  {
    match server(WithTrailingSlash(baseUrl))
    case FetchFailed(_) => []
    case Fetched(page) =>
      var dates := DateDirectories(page);
      assert forall d :: d in dates ==> IsDateName(d) by {
        forall d | d in dates
          ensures IsDateName(d)
        {
          DateDirectoriesSound(page, d);
        }
      }
      dates
  }

  /**
   * Only the normalised URL is ever requested: a base URL and the same URL
   * with its slash already appended give the same answer, and servers that
   * agree on that one URL give the same dates.
   */
  lemma BaseUrlNormalisedBeforeUse(baseUrl: string, server: string -> Fetch, other: string -> Fetch)
    requires server(WithTrailingSlash(baseUrl)) == other(WithTrailingSlash(baseUrl))
    ensures ListAvailableDaysAsync(baseUrl, server) == ListAvailableDaysAsync(WithTrailingSlash(baseUrl), server)
    ensures ListAvailableDaysAsync(baseUrl, server) == ListAvailableDaysAsync(baseUrl, other)
  {
    WithTrailingSlashIdempotent(baseUrl);
  }

  /**
   * A server that cannot be reached and a listing with no date directories
   * produce the same result, so the caller cannot tell them apart.
   */
  lemma ErrorIndistinguishableFromEmpty(baseUrl: string)
    ensures ListAvailableDaysAsync(baseUrl, _ => FetchFailed("connection refused"))
         == ListAvailableDaysAsync(baseUrl, _ => Fetched(Pre([Some("../")])))
         == []
  {
    var page := Pre([Some("../")]);
    assert DateName(Some("../")) == None;
    assert Links(page)[..0] == [];
  }

  /** Every date the script lists is accepted as a date argument by the downloader. */
  lemma ListedDatesAreValidArguments(baseUrl: string, server: string -> Fetch)
    ensures forall d :: d in ListAvailableDaysAsync(baseUrl, server) ==> DownloadFits.ValidDateArgument(d)
  {
  }

  /**
   * The module-level `list_available_days` of the API and this script
   * request the same normalised URL and list the same dates; they differ
   * only on failure, where the API raises and the script returns `[]`.
   */
  lemma SameDatesAsApi(baseUrl: string, server: string -> Fetch)
    ensures var r := MroApi.AvailableDays(MroApi.NewApi(baseUrl), server);
      && (r.Names? ==> r.names == ListAvailableDaysAsync(baseUrl, server))
      && (r.ListingRaised? ==> ListAvailableDaysAsync(baseUrl, server) == [])
  {
  }
}

=== FILE: listing.dfy ===
/**
 * The two filters applied to the anchors of a directory listing: data
 * files (`.fits` names, in server order) and date directories (eight
 * digits, trailing slashes stripped, sorted). Both are instances of one
 * in-order filter-map, `Collect`, whose result is pinned down exactly by
 * the positions it keeps.
 */
module Listing {
  import opened Text
  import opened Sorting
  import opened Remote

  /** A filter over anchors: the name an anchor contributes, if any. */
  type Filter = Option<string> -> Option<string>

  /**
   * Keeps, in order, the names `f` extracts from the anchors it accepts;
   * the shape of a loop that appends to a list.
   */
  function Collect(f: Filter, s: seq<Option<string>>): (r: seq<string>)
    ensures |r| <= |s|
    decreases |s|
  {
    if |s| == 0 then []
    else
      var init := Collect(f, s[..|s| - 1]);
      match f(s[|s| - 1])
      case None => init
      case Some(u) => init + [u]
  }

  /** One more anchor: its name, if any, is appended. */
  lemma CollectSnoc(f: Filter, s: seq<Option<string>>, i: nat)
    requires i < |s|
    ensures Collect(f, s[..i + 1]) ==
      if f(s[i]).Some? then Collect(f, s[..i]) + [f(s[i]).value] else Collect(f, s[..i])
  {
    assert s[..i + 1][..i] == s[..i];
  }

  /** What `Collect` keeps is exactly the names of accepted anchors. */
  lemma {:induction false} CollectMembership(f: Filter, s: seq<Option<string>>, u: string)
    ensures u in Collect(f, s) <==> exists i :: 0 <= i < |s| && f(s[i]) == Some(u)
    decreases |s|
  {
    if |s| > 0 {
      var n := |s| - 1;
      CollectMembership(f, s[..n], u);
      assert forall i :: 0 <= i < n ==> s[..n][i] == s[i];
      if u in Collect(f, s[..n]) {
        var i :| 0 <= i < n && f(s[..n][i]) == Some(u);
        assert f(s[i]) == Some(u);
      }
    }
  }

  /** The positions of `s` whose anchors `Collect` keeps, in increasing order. */
  function Positions(f: Filter, s: seq<Option<string>>): (ps: seq<nat>)
    ensures |ps| == |Collect(f, s)|
    ensures forall k :: 0 <= k < |ps| ==> ps[k] < |s|
    decreases |s|
  {
    if |s| == 0 then []
    else
      var ps := Positions(f, s[..|s| - 1]);
      if f(s[|s| - 1]).Some? then ps + [|s| - 1] else ps
  }

  /** The k-th kept name is the name of the anchor at the k-th position. */
  lemma {:induction false} PositionsMatch(f: Filter, s: seq<Option<string>>)
    ensures forall k :: 0 <= k < |Positions(f, s)| ==> f(s[Positions(f, s)[k]]) == Some(Collect(f, s)[k])
    decreases |s|
  {
    if |s| > 0 {
      var n := |s| - 1;
      PositionsMatch(f, s[..n]);
      assert forall i :: 0 <= i < n ==> s[..n][i] == s[i];
    }
  }

  /** Positions strictly increase: order is kept and no anchor is used twice. */
  lemma {:induction false} PositionsIncrease(f: Filter, s: seq<Option<string>>)
    ensures forall k, l :: 0 <= k < l < |Positions(f, s)| ==> Positions(f, s)[k] < Positions(f, s)[l]
    decreases |s|
  {
    if |s| > 0 {
      PositionsIncrease(f, s[..|s| - 1]);
    }
  }

  /** Every accepted anchor's position is kept: nothing accepted is dropped. */
  lemma {:induction false} PositionsComplete(f: Filter, s: seq<Option<string>>, i: nat)
    requires i < |s| && f(s[i]).Some?
    ensures i in Positions(f, s)
    decreases |s|
  {
    var n := |s| - 1;
    if i < n {
      assert s[..n][i] == s[i];
      PositionsComplete(f, s[..n], i);
    }
  }

  /** Anything other than a missing or empty `href` (`if not href: continue`). */
  predicate Present(href: Option<string>) {
    href.Some? && href.value != ""
  }

  /** The files filter: the `href` itself when it ends in `.fits`. */
  function FitsName(href: Option<string>): (r: Option<string>)
    ensures r.Some? ==> r == href && r.value != "" && EndsWith(r.value, ".fits")
  {
    if Present(href) && EndsWith(href.value, ".fits") then href else None
  }

  /** An `href` naming a sub-directory other than the parent link. */
  predicate IsSubdirectoryHref(h: string) {
    EndsWith(h, "/") && h != "../"
  }

  /** `href` is a sub-directory link whose name, slashes stripped, is `name`. */
  predicate NamesDirectory(href: Option<string>, name: string) {
    Present(href) && IsSubdirectoryHref(href.value) && RStrip(href.value, '/') == name
  }

  /**
   * The directories filter: for a sub-directory `href`, its name with
   * trailing slashes stripped, when that name is eight digits.
   */
  function DateName(href: Option<string>): (r: Option<string>)
    ensures r.Some? ==> IsDateName(r.value) && NamesDirectory(href, r.value)
  {
    if Present(href) && IsSubdirectoryHref(href.value) then
      var name := RStrip(href.value, '/');
      if IsDateName(name) then Some(name) else None
    else None
  }

  /** The data files listed on a page, in the server's order. */
  function FitsFiles(page: Page): seq<string> {
    Collect(FitsName, Links(page))
  }

  /** The date directory names on a page, in server order, before sorting. */
  function DateCandidates(page: Page): seq<string> {
    Collect(DateName, Links(page))
  }

  /** The date directory names on a page, sorted ascending. */
  function DateDirectories(page: Page): seq<string> {
    Sort(DateCandidates(page))
  }

  /**
   * The files filter keeps exactly the present `.fits` anchors: a name is
   * listed iff some anchor is that name and it ends in `.fits`.
   */
  lemma FitsFilesAreTheFitsLinks(page: Page, name: string)
    ensures name in FitsFiles(page) <==>
      name != "" && EndsWith(name, ".fits") && Some(name) in Links(page)
  {
    var links := Links(page);
    CollectMembership(FitsName, links, name);
    if name != "" && EndsWith(name, ".fits") && Some(name) in links {
      var i :| 0 <= i < |links| && links[i] == Some(name);
      assert FitsName(links[i]) == Some(name);
    }
  }

  /**
   * The files filter keeps the server's order and multiplicity: the k-th
   * listed name is the anchor at the k-th kept position, kept positions
   * increase, and every `.fits` anchor's position is kept.
   */
  lemma FitsFilesInServerOrder(page: Page)
    ensures var links, names, ps := Links(page), FitsFiles(page), Positions(FitsName, Links(page));
      && |ps| == |names|
      && (forall k :: 0 <= k < |ps| ==> ps[k] < |links| && links[ps[k]] == Some(names[k]))
      && (forall k, l :: 0 <= k < l < |ps| ==> ps[k] < ps[l])
      && (forall i :: 0 <= i < |links| && Present(links[i]) && EndsWith(links[i].value, ".fits") ==> i in ps)
  {
    var links := Links(page);
    PositionsMatch(FitsName, links);
    PositionsIncrease(FitsName, links);
    forall i | 0 <= i < |links| && Present(links[i]) && EndsWith(links[i].value, ".fits")
      ensures i in Positions(FitsName, links)
    {
      PositionsComplete(FitsName, links, i);
    }
  }

  /** The files filter does not sort: server order survives even when unsorted. */
  lemma FitsFilesNotSorted()
    ensures FitsFiles(Pre([Some("b.fits"), None, Some("a.fits"), Some("c.txt")])) == ["b.fits", "a.fits"]
  {
    var hrefs := [Some("b.fits"), None, Some("a.fits"), Some("c.txt")];
    assert EndsWith("b.fits", ".fits") && EndsWith("a.fits", ".fits");
    assert !EndsWith("c.txt", ".fits") by {
      assert "c.txt"[0..] != ".fits";
    }
    assert hrefs[..3] == [Some("b.fits"), None, Some("a.fits")];
    assert hrefs[..3][..2] == [Some("b.fits"), None];
    assert hrefs[..3][..2][..1] == [Some("b.fits")];
    assert hrefs[..3][..2][..1][..0] == [];
    assert Collect(FitsName, [Some("b.fits")]) == ["b.fits"];
    assert Collect(FitsName, [Some("b.fits"), None]) == ["b.fits"];
    assert Collect(FitsName, hrefs[..3]) == ["b.fits", "a.fits"];
  }

  /**
   * Every listed date directory is an eight-digit name that came from a
   * sub-directory anchor (not `../`) by stripping its trailing slashes.
   */
  lemma DateDirectoriesSound(page: Page, name: string)
    requires name in DateDirectories(page)
    ensures IsDateName(name)
    ensures exists i :: 0 <= i < |Links(page)| && NamesDirectory(Links(page)[i], name)
  {
    var links := Links(page);
    assert name in multiset(DateDirectories(page));
    assert name in DateCandidates(page);
    CollectMembership(DateName, links, name);
    var i :| 0 <= i < |links| && DateName(links[i]) == Some(name);
    assert NamesDirectory(links[i], name);
  }

  /** Every sub-directory anchor whose stripped name is eight digits is listed. */
  lemma DateDirectoriesComplete(page: Page, i: nat)
    requires i < |Links(page)| && Present(Links(page)[i])
    requires IsSubdirectoryHref(Links(page)[i].value)
    requires IsDateName(RStrip(Links(page)[i].value, '/'))
    ensures RStrip(Links(page)[i].value, '/') in DateDirectories(page)
  {
    var links := Links(page);
    var name := RStrip(links[i].value, '/');
    assert DateName(links[i]) == Some(name);
    CollectMembership(DateName, links, name);
    assert name in multiset(DateCandidates(page));
    assert name in multiset(DateDirectories(page));
  }

  /**
   * The date directories come out sorted, as a permutation of the names
   * the filter kept, and that sorted permutation is the only one.
   */
  lemma DateDirectoriesSortedPermutation(page: Page, other: seq<string>)
    ensures Sorted(DateDirectories(page))
    ensures multiset(DateDirectories(page)) == multiset(DateCandidates(page))
    ensures Sorted(other) && multiset(other) == multiset(DateCandidates(page)) ==>
      other == DateDirectories(page)
  {
    if Sorted(other) && multiset(other) == multiset(DateCandidates(page)) {
      SortIsTheSortedPermutation(DateCandidates(page), other);
    }
  }

  /**
   * Adjacent listed dates are in calendar order: string order agrees with
   * the numeric value of the eight digits.
   */
  lemma DateDirectoriesChronological(page: Page, k: nat)
    requires k + 1 < |DateDirectories(page)|
    ensures var ds := DateDirectories(page);
      IsDateName(ds[k]) && IsDateName(ds[k + 1]) && DecimalValue(ds[k]) <= DecimalValue(ds[k + 1])
  {
    var ds := DateDirectories(page);
    DateDirectoriesSound(page, ds[k]);
    DateDirectoriesSound(page, ds[k + 1]);
    LexLeIsNumericOrder(ds[k], ds[k + 1]);
  }

  /** Stripping removes every trailing slash: `20250101//` lists as `20250101`. */
  lemma DoubleSlashStripped()
    ensures DateName(Some("20250101//")) == Some("20250101")
    ensures DateName(Some("../")) == None
    ensures DateName(Some("2025010/")) == None
  {
    assert "20250101//"[..9] == "20250101/";
    assert "20250101//"[..9][..8] == "20250101";
    assert EndsWith("20250101//", "/");
    assert "2025010/"[..7] == "2025010";
    assert EndsWith("2025010/", "/");
  }
}

=== FILE: mro_api.dfy ===
/**
 * The decision logic of the asynchronous API client (`MRODataAPI`):
 * base-URL normalisation in the constructor, the two-mode listing parser,
 * the skip-or-fetch check for one file, and the aggregation of per-file
 * task results into the statistics dictionary of `download_date_data`.
 * HTTP, the semaphore-bounded `gather` and the filesystem are inputs: the
 * per-file tasks are evaluated in list order, which is the order `gather`
 * returns their results in.
 */
module MroApi {
  import opened Text
  import opened Remote
  import opened Listing
  import opened Outcomes
  import Sorting

  /** The API object; its only state is the normalised base URL. */
  datatype Api = Api(baseUrl: string)

  /** `MRODataAPI(base_url)`: appends `/` to the base URL when missing. */
  function NewApi(baseUrl: string): (api: Api)
    ensures EndsWith(api.baseUrl, "/")
    ensures |baseUrl| <= |api.baseUrl| <= |baseUrl| + 1 && api.baseUrl[..|baseUrl|] == baseUrl
    ensures api.baseUrl == baseUrl <==> EndsWith(baseUrl, "/")
  {
    Api(WithTrailingSlash(baseUrl))
  }

  /** Constructing from an already normalised URL keeps it as it is. */
  lemma NewApiIdempotent(baseUrl: string)
    ensures NewApi(NewApi(baseUrl).baseUrl) == NewApi(baseUrl)
  {
    WithTrailingSlashIdempotent(baseUrl);
  }

  /**
   * The body of the anchor loop of `_parse_directory_listing`: the name one
   * anchor contributes in the given mode, if any.
   */
  method AnchorName(href: Option<string>, fileType: string) returns (name: Option<string>)
    ensures fileType == "files" ==> name == FitsName(href)
    ensures fileType == "directories" ==> name == DateName(href)
    ensures fileType != "files" && fileType != "directories" ==> name == None
  {
    name := None;
    if href.Some? && href.value != "" {
      if fileType == "files" {
        if EndsWith(href.value, ".fits") {
          name := href;
        }
      } else if fileType == "directories" {
        if EndsWith(href.value, "/") && href.value != "../" {
          var dirName := RStrip(href.value, '/');
          if |dirName| == 8 && AllDigits(dirName) {
            name := Some(dirName);
          }
        }
      }
    }
  }

  /**
   * One iteration of the anchor loop: the names collected from the first
   * `i + 1` anchors extend those collected from the first `i`.
   */
  method VisitAnchor(links: seq<Option<string>>, i: nat, fileType: string, items: seq<string>)
    returns (items': seq<string>)
    requires i < |links|
    requires fileType == "files" ==> items == Collect(FitsName, links[..i])
    requires fileType == "directories" ==> items == Collect(DateName, links[..i])
    requires fileType != "files" && fileType != "directories" ==> items == []
    ensures fileType == "files" ==> items' == Collect(FitsName, links[..i + 1])
    ensures fileType == "directories" ==> items' == Collect(DateName, links[..i + 1])
    ensures fileType != "files" && fileType != "directories" ==> items' == []
  {
    var name := AnchorName(links[i], fileType);
    items' := items;
    if name.Some? {
      items' := items + [name.value];
    }
    if fileType == "files" {
      CollectSnoc(FitsName, links, i);
    } else if fileType == "directories" {
      CollectSnoc(DateName, links, i);
    }
  }

  /**
   * `_parse_directory_listing`: walks the `<pre>` anchors in order,
   * appending `.fits` hrefs in "files" mode and eight-digit directory
   * names in "directories" mode; only the latter is sorted. Any other
   * mode matches nothing.
   */
  method ParseDirectoryListing(page: Page, fileType: string) returns (items: seq<string>)
    ensures fileType == "files" ==> items == FitsFiles(page)
    ensures fileType == "directories" ==> items == DateDirectories(page)
    ensures fileType != "files" && fileType != "directories" ==> items == []
  {
    items := [];
    var links := Links(page);
    var i := 0;
    while i < |links|
      invariant 0 <= i <= |links|
      invariant fileType == "files" ==> items == Collect(FitsName, links[..i])
      invariant fileType == "directories" ==> items == Collect(DateName, links[..i])
      invariant fileType != "files" && fileType != "directories" ==> items == []
    {
      items := VisitAnchor(links, i, fileType, items);
      i := i + 1;
    }
    assert links[..|links|] == links;
    if fileType == "directories" {
      items := Sorting.Sort(items);
    }
  }

  /**
   * What `list_available_days` and `get_files_for_date` produce: the parsed
   * names, or an exception re-raised from a failed request. `cause` is the
   * text of the underlying exception.
   */
  datatype Listed = Names(names: seq<string>) | ListingRaised(cause: string)

  /**
   * `list_available_days`: fetches the base URL and parses it in
   * "directories" mode; a failed request is re-raised, never turned into
   * an empty list.
   */
  function AvailableDays(api: Api, server: string -> Fetch): (r: Listed)
    ensures r.ListingRaised? <==> server(api.baseUrl).FetchFailed?
    ensures r.ListingRaised? ==> r.cause == server(api.baseUrl).message
    ensures r.Names? ==> Sorting.Sorted(r.names) && forall d :: d in r.names ==> IsDateName(d)
    ensures r.Names? ==> multiset(r.names) == multiset(DateCandidates(server(api.baseUrl).page))
  {
    match server(api.baseUrl)
    case FetchFailed(message) => ListingRaised(message)
    case Fetched(page) =>
      var dates := DateDirectories(page);
      assert forall d :: d in dates ==> IsDateName(d) by {
        forall d | d in dates
          ensures IsDateName(d)
        {
          DateDirectoriesSound(page, d);
        }
      }
      Names(dates)
  }

  /**
   * Unlike the stand-alone day lister, the API keeps an unreachable server
   * apart from a listing without dates: one raises, the other is empty.
   */
  lemma ErrorDistinguishableFromEmpty(api: Api)
    ensures AvailableDays(api, _ => FetchFailed("connection refused")).ListingRaised?
    ensures AvailableDays(api, _ => Fetched(Pre([Some("../")]))) == Names([])
  {
    assert DateName(Some("../")) == None;
    assert Links(Pre([Some("../")]))[..0] == [];
  }

  /**
   * `get_files_for_date`: fetches `<base_url><date>/` and parses it in
   * "files" mode; a failed request is re-raised.
   */
  function FilesForDate(api: Api, date: string, server: string -> Fetch): (r: Listed)
    ensures r.ListingRaised? <==> server(api.baseUrl + date + "/").FetchFailed?
    ensures r.ListingRaised? ==> r.cause == server(api.baseUrl + date + "/").message
    ensures r.Names? ==> forall n :: n in r.names <==>
      n != "" && EndsWith(n, ".fits") && Some(n) in Links(server(api.baseUrl + date + "/").page)
    ensures r.Names? ==> r.names == FitsFiles(server(api.baseUrl + date + "/").page)
  {
    match server(api.baseUrl + date + "/")
    case FetchFailed(message) => ListingRaised(message)
    case Fetched(page) =>
      var files := FitsFiles(page);
      assert forall n :: n in files <==> n != "" && EndsWith(n, ".fits") && Some(n) in Links(page) by {
        forall n
          ensures n in files <==> n != "" && EndsWith(n, ".fits") && Some(n) in Links(page)
        {
          FitsFilesAreTheFitsLinks(page, n);
        }
      }
      Names(files)
  }

  /** Why a file is or is not skipped (the reason texts of `check_file_exists`). */
  datatype SkipReason =
    | AlreadyExists(size: nat)
    | Incomplete(expected: int, actual: nat)
    | CouldNotVerify

  /** `(should_skip, reason)` */
  datatype SkipCheck = SkipCheck(shouldSkip: bool, reason: Option<SkipReason>)

  /**
   * The server vouches for the local copy: the HEAD request succeeded and
   * declared a positive length equal to the local size.
   */
  predicate ServerConfirms(head: HeadProbe, localSize: nat) {
    head.HeadResponse? && head.success &&
    DeclaredLength(head.contentLength) > 0 && DeclaredLength(head.contentLength) == localSize
  }

  /**
   * `check_file_exists`: no probe at all for a missing file or under
   * `force`; otherwise skip exactly when the server confirms the local
   * size. A failed probe (an exception, which includes a non-2xx status)
   * is "could not verify", never a skip.
   */
  function CheckFileExists(env: FileEnv, force: bool): (c: SkipCheck)
    ensures !env.localExists || force ==> c == SkipCheck(false, None)
    ensures c.shouldSkip <==> env.localExists && !force && ServerConfirms(env.head, env.localSize)
    ensures c.shouldSkip ==> env.localSize > 0 && c.reason == Some(AlreadyExists(env.localSize))
    ensures env.localExists && !force ==> c.reason.Some?
    ensures env.localExists && !force && !(env.head.HeadResponse? && env.head.success) ==>
      c == SkipCheck(false, Some(CouldNotVerify))
    ensures env.localExists && !force && env.head.HeadResponse? && env.head.success && !c.shouldSkip ==>
      c.reason == Some(Incomplete(DeclaredLength(env.head.contentLength), env.localSize))
  {
    if !env.localExists || force then SkipCheck(false, None)
    else
      match env.head
      case HeadFailed => SkipCheck(false, Some(CouldNotVerify))
      case HeadResponse(success, contentLength) =>
        if !success then SkipCheck(false, Some(CouldNotVerify))
        else
          var expected := DeclaredLength(contentLength);
          if expected > 0 && env.localSize == expected then SkipCheck(true, Some(AlreadyExists(env.localSize)))
          else SkipCheck(false, Some(Incomplete(expected, env.localSize)))
  }

  /**
   * Whether the local file exists and how large it is are only looked at
   * by the check when it matters; without a local file, or under `force`,
   * the HEAD answer is never consulted.
   */
  lemma CheckIgnoresProbeWhenAbsentOrForced(env: FileEnv, force: bool, other: HeadProbe)
    requires !env.localExists || force
    ensures CheckFileExists(env, force) == CheckFileExists(env.(head := other), force)
    ensures !CheckFileExists(env, force).shouldSkip
  {
  }

  /** The third field of a task's result tuple. */
  datatype TaskNote = SkipNote(reason: SkipReason) | DownloadedNote | FailedNote

  /** `(filename, success, reason)` as returned by `download_single_file`. */
  datatype TaskResult = TaskResult(filename: string, success: bool, note: TaskNote)

  /**
   * `download_single_file`: a skipped file returns `(name, True, reason)`;
   * otherwise the file is fetched and the result records the fetch.
   */
  function RunTask(filename: string, env: FileEnv, force: bool): (t: TaskResult)
    ensures t.filename == filename
    ensures t.note.SkipNote? <==> CheckFileExists(env, force).shouldSkip
    ensures !t.note.SkipNote? ==> (t.success <==> env.fetchOk)
    ensures t.note.SkipNote? ==> t.success && Some(t.note.reason) == CheckFileExists(env, force).reason
    ensures !t.note.SkipNote? ==> (t.note == DownloadedNote <==> env.fetchOk)
  {
    var check := CheckFileExists(env, force);
    if check.shouldSkip then TaskResult(filename, true, SkipNote(check.reason.value))
    else if env.fetchOk then TaskResult(filename, true, DownloadedNote)
    else TaskResult(filename, false, FailedNote)
  }

  /** A skipped file never reaches the download: its result ignores the fetch. */
  lemma SkippedTaskNeverFetches(filename: string, env: FileEnv, force: bool, fetchOk: bool)
    requires CheckFileExists(env, force).shouldSkip
    ensures RunTask(filename, env, force) == RunTask(filename, env.(fetchOk := fetchOk), force)
  {
  }

  /**
   * The counter update at the aggregation loop: a successful result is a
   * download when its reason is "downloaded" and a skip otherwise; an
   * unsuccessful result is a failure.
   */
  function Classify(t: TaskResult): FileOutcome {
    if t.success then (if t.note == DownloadedNote then Downloaded else Skipped)
    else Failed
  }

  /**
   * What should happen to one file, stated independently of the task
   * encoding: skipped when the check says so, otherwise downloaded or
   * failed according to the fetch.
   */
  function ExpectedOutcome(env: FileEnv, force: bool): FileOutcome {
    if CheckFileExists(env, force).shouldSkip then Skipped
    else if env.fetchOk then Downloaded
    else Failed
  }

  /** The outcome of each listed file, in list order. */
  function ExpectedOutcomes(files: seq<string>, env: string -> FileEnv, force: bool): (os: seq<FileOutcome>)
    ensures |os| == |files|
    ensures forall i :: 0 <= i < |files| ==> os[i] == ExpectedOutcome(env(files[i]), force)
  {
    seq(|files|, i requires 0 <= i < |files| => ExpectedOutcome(env(files[i]), force))
  }

  /**
   * Classifying a task's result tuple recovers the file's outcome: no skip
   * reason can be mistaken for "downloaded".
   */
  lemma ClassifyRecoversOutcome(filename: string, env: FileEnv, force: bool)
    ensures Classify(RunTask(filename, env, force)) == ExpectedOutcome(env, force)
  {
  }

  /** An element of the list `gather(..., return_exceptions=True)` returns. */
  datatype TaskOutcome = Returned(result: TaskResult) | Raised(exceptionType: string)

  /** The statistics dictionary `download_date_data` returns. */
  datatype MirrorResult = MirrorResult(
    success: bool,
    downloaded: nat,
    skipped: nat,
    failed: nat,
    total: nat,
    outputDir: string,
    error: Option<string>)

  const NoFitsFilesFound := "No FITS files found"

  /** The text of the `ValueError` `asyncio.Semaphore` raises for a negative initial value. */
  const SemaphoreRejected := "Semaphore initial value must be >= 0"

  /** The dictionary returned from either exception handler. */
  function ErrorResult(outputDir: string, message: string): (r: MirrorResult)
    ensures !r.success && r.error == Some(message)
    ensures r.downloaded == r.skipped == r.failed == r.total == 0
  {
    MirrorResult(false, 0, 0, 0, 0, outputDir, Some(message))
  }

  /**
   * Unpacking an exception object as a `(filename, success, reason)`
   * tuple raises `TypeError` with this text.
   */
  function UnpackError(exceptionType: string): string {
    "cannot unpack non-iterable " + exceptionType + " object"
  }

  /**
   * The first task, in list order, that raised: the aggregation loop stops
   * there, because unpacking it fails.
   */
  function FirstRaised(os: seq<TaskOutcome>): (e: Option<string>)
    ensures e.None? <==> forall i :: 0 <= i < |os| ==> os[i].Returned?
    ensures e.Some? ==>
      exists i :: 0 <= i < |os| && os[i] == Raised(e.value) && forall j :: 0 <= j < i ==> os[j].Returned?
    decreases |os|
  {
    if |os| == 0 then None
    else if os[0].Raised? then Some(os[0].exceptionType)
    else
      var rest := FirstRaised(os[1..]);
      assert forall i :: 1 <= i < |os| ==> os[1..][i - 1] == os[i];
      if rest.Some? then
        var i :| 0 <= i < |os[1..]| && os[1..][i] == Raised(rest.value) && forall j :: 0 <= j < i ==> os[1..][j].Returned?;
        assert os[i + 1] == Raised(rest.value) && forall j :: 0 <= j < i + 1 ==> os[j].Returned?;
        rest
      else rest
  }

  /** The counter each returned result increments, in list order. */
  function Classified(os: seq<TaskOutcome>): (cs: seq<FileOutcome>)
    requires forall i :: 0 <= i < |os| ==> os[i].Returned?
    ensures |cs| == |os|
    ensures forall i :: 0 <= i < |os| ==> cs[i] == Classify(os[i].result)
  {
    seq(|os|, i requires 0 <= i < |os| => Classify(os[i].result))
  }

  /**
   * The results loop and the dictionary built after it. Results are
   * counted in list order; an exception element cannot be unpacked, so the
   * outer `except Exception` handler turns the whole call into a zero-count
   * error result (the `isinstance(results, Exception)` test inside the
   * loop never fires and has no counterpart here).
   */
  function Aggregate(os: seq<TaskOutcome>, total: nat, outputDir: string): (r: MirrorResult)
    ensures r.outputDir == outputDir
    ensures (exists i :: 0 <= i < |os| && os[i].Raised?) ==>
      && r == ErrorResult(outputDir, UnpackError(FirstRaised(os).value))
      && !r.success && r.downloaded == r.skipped == r.failed == r.total == 0
    ensures (forall i :: 0 <= i < |os| ==> os[i].Returned?) ==>
      && r.error.None?
      && r.total == total
      && r.downloaded + r.skipped + r.failed == |os|
      && Counts(r.downloaded, r.skipped, r.failed) == Tally(Classified(os))
      && (r.success <==> r.failed == 0)
  {
    match FirstRaised(os)
    case Some(exceptionType) => ErrorResult(outputDir, UnpackError(exceptionType))
    case None =>
      var counts := Tally(Classified(os));
      TallyConserves(Classified(os));
      MirrorResult(counts.failed == 0, counts.downloaded, counts.skipped, counts.failed, total, outputDir, None)
  }

  /** The per-file tasks, one per listed file, in list order. */
  function RunTasks(files: seq<string>, env: string -> FileEnv, force: bool): (os: seq<TaskOutcome>)
    ensures |os| == |files|
    ensures forall i :: 0 <= i < |os| ==> os[i] == Returned(RunTask(files[i], env(files[i]), force))
  {
    seq(|files|, i requires 0 <= i < |files| => Returned(RunTask(files[i], env(files[i]), force)))
  }

  /**
   * `download_date_data`: lists the date's directory and, when files are
   * found, creates the semaphore, runs one task per file and aggregates.
   * `dateDir` is the local directory `Path(output_dir) / date`, assumed
   * created; `server` answers GET requests for listing pages and `env`
   * describes each file. A negative `maxConcurrent` makes the semaphore's
   * constructor raise, which the outer handler reports.
   */
  function DownloadDateData(api: Api, date: string, dateDir: string, force: bool, maxConcurrent: int,
                            server: string -> Fetch, env: string -> FileEnv): (r: MirrorResult)
    ensures r.outputDir == dateDir
    ensures r.success ==> r.failed == 0 && r.total > 0 && r.error.None?
    ensures r.error.None? ==>
      && server(api.baseUrl + date + "/").Fetched?
      && r.total == |FitsFiles(server(api.baseUrl + date + "/").page)| > 0
      && maxConcurrent >= 0
      && r.downloaded + r.skipped + r.failed == r.total
      && (r.success <==> r.failed == 0)
    ensures r.error.Some? ==> !r.success && r.downloaded == r.skipped == r.failed == r.total == 0
    ensures (maxConcurrent < 0 && server(api.baseUrl + date + "/").Fetched? &&
             FitsFiles(server(api.baseUrl + date + "/").page) != []) ==>
      r == ErrorResult(dateDir, SemaphoreRejected)
  {
    match server(api.baseUrl + date + "/")
    case FetchFailed(message) => ErrorResult(dateDir, message)
    case Fetched(page) =>
      var files := FitsFiles(page);
      if |files| == 0 then ErrorResult(dateDir, NoFitsFilesFound)
      else if maxConcurrent < 0 then ErrorResult(dateDir, SemaphoreRejected)
      else Aggregate(RunTasks(files, env, force), |files|, dateDir)
  }

  /** An empty listing is a reported failure, not a vacuous success. */
  lemma EmptyListingIsFailure(api: Api, date: string, dateDir: string, force: bool, maxConcurrent: int,
                              server: string -> Fetch, env: string -> FileEnv)
    requires server(api.baseUrl + date + "/").Fetched?
    requires FitsFiles(server(api.baseUrl + date + "/").page) == []
    ensures DownloadDateData(api, date, dateDir, force, maxConcurrent, server, env)
      == MirrorResult(false, 0, 0, 0, 0, dateDir, Some(NoFitsFilesFound))
  {
  }

  /**
   * For a non-empty listing each counter is the number of files whose
   * expected outcome it names, whatever order the tasks finish in.
   */
  lemma DownloadDateDataCountsOutcomes(api: Api, date: string, dateDir: string, force: bool, maxConcurrent: int,
                                       server: string -> Fetch, env: string -> FileEnv)
    requires maxConcurrent >= 0
    requires server(api.baseUrl + date + "/").Fetched?
    requires FitsFiles(server(api.baseUrl + date + "/").page) != []
    ensures var files := FitsFiles(server(api.baseUrl + date + "/").page);
      var expected := ExpectedOutcomes(files, env, force);
      var r := DownloadDateData(api, date, dateDir, force, maxConcurrent, server, env);
      && r.error.None? && r.total == |files|
      && Counts(r.downloaded, r.skipped, r.failed) == Tally(expected)
  {
    var files := FitsFiles(server(api.baseUrl + date + "/").page);
    var os := RunTasks(files, env, force);
    var classified := Classified(os);
    var expected := ExpectedOutcomes(files, env, force);
    assert FirstRaised(os).None?;
    forall i | 0 <= i < |files|
      ensures classified[i] == expected[i]
    {
      ClassifyRecoversOutcome(files[i], env(files[i]), force);
    }
    assert classified == expected;
  }

  /** With `force` set nothing is skipped: every file is fetched. */
  lemma ForceSkipsNothing(api: Api, date: string, dateDir: string, maxConcurrent: int,
                          server: string -> Fetch, env: string -> FileEnv)
    ensures DownloadDateData(api, date, dateDir, true, maxConcurrent, server, env).skipped == 0
  {
    var url := api.baseUrl + date + "/";
    if server(url).Fetched? && FitsFiles(server(url).page) != [] && maxConcurrent >= 0 {
      DownloadDateDataCountsOutcomes(api, date, dateDir, true, maxConcurrent, server, env);
      ForcedOutcomesSkipNothing(FitsFiles(server(url).page), env);
    }
  }

  /** Forced, no file's outcome is a skip. */
  lemma ForcedOutcomesSkipNothing(files: seq<string>, env: string -> FileEnv)
    ensures Tally(ExpectedOutcomes(files, env, true)).skipped == 0
  {
    var expected := ExpectedOutcomes(files, env, true);
    assert forall i :: 0 <= i < |expected| ==> expected[i] != Skipped;
    assert Skipped !in multiset(expected);
    TallyCountsOccurrences(expected);
  }

  /**
   * The local copy of one file after a run: a download leaves a file of
   * the size the GET wrote; a skip leaves the copy as it was. A failed
   * download is taken to leave it as it was too.
   */
  function AfterRun(env: FileEnv, force: bool): (after: FileEnv)
    ensures ExpectedOutcome(env, force) == Downloaded ==> after.localExists && after.localSize == env.written
    ensures ExpectedOutcome(env, force) != Downloaded ==> after == env
    ensures after.head == env.head && after.fetchOk == env.fetchOk && after.written == env.written
  {
    if ExpectedOutcome(env, force) == Downloaded then env.(localExists := true, localSize := env.written)
    else env
  }

  /**
   * A file the server sizes, and that did not fail, is skipped when the
   * mirror is run again without `force` exactly when it was skipped this
   * time or the GET wrote as many bytes as the HEAD response declared.
   */
  lemma RerunSkipsFile(env: FileEnv, force: bool)
    requires env.head.HeadResponse? && env.head.success && DeclaredLength(env.head.contentLength) > 0
    requires ExpectedOutcome(env, force) != Failed
    ensures ExpectedOutcome(AfterRun(env, force), false) == Skipped <==>
      ExpectedOutcome(env, force) == Skipped || env.written == DeclaredLength(env.head.contentLength)
  {
  }

  /**
   * Running the mirror a second time, after a first run in which nothing
   * failed and every HEAD succeeded with a positive length that the GET
   * then delivered in full, downloads nothing and skips every file.
   */
  lemma SecondRunSkipsEverything(api: Api, date: string, dateDir: string, force: bool, maxConcurrent: int,
                                 server: string -> Fetch, env: string -> FileEnv)
    requires server(api.baseUrl + date + "/").Fetched?
    requires var files := FitsFiles(server(api.baseUrl + date + "/").page);
      forall i :: 0 <= i < |files| ==>
        env(files[i]).head.HeadResponse? && env(files[i]).head.success &&
        DeclaredLength(env(files[i]).head.contentLength) > 0 &&
        env(files[i]).written == DeclaredLength(env(files[i]).head.contentLength)
    requires DownloadDateData(api, date, dateDir, force, maxConcurrent, server, env).success
    ensures var r := DownloadDateData(api, date, dateDir, false, maxConcurrent, server, n => AfterRun(env(n), force));
      r.success && r.downloaded == 0 && r.failed == 0 && r.skipped == r.total
  {
    var files := FitsFiles(server(api.baseUrl + date + "/").page);
    var env2 := n => AfterRun(env(n), force);
    DownloadDateDataCountsOutcomes(api, date, dateDir, force, maxConcurrent, server, env);
    DownloadDateDataCountsOutcomes(api, date, dateDir, false, maxConcurrent, server, env2);
    var first := ExpectedOutcomes(files, env, force);
    var second := ExpectedOutcomes(files, env2, false);
    TallyCountsOccurrences(first);
    assert Failed !in multiset(first);
    forall i | 0 <= i < |files|
      ensures second[i] == Skipped
    {
      assert first[i] in multiset(first);
      RerunSkipsFile(env(files[i]), force);
    }
    TallyAllSkipped(second);
  }

  /**
   * `download_date_data` mirrors exactly the list `get_files_for_date`
   * reports: the same exception text when the listing fails, the "No FITS
   * files found" error when it is empty, the semaphore's error for a
   * negative bound, and one counted task per listed file otherwise.
   */
  lemma DownloadDateDataFollowsFilesForDate(api: Api, date: string, dateDir: string, force: bool, maxConcurrent: int,
                                            server: string -> Fetch, env: string -> FileEnv)
    ensures var listed := FilesForDate(api, date, server);
      var r := DownloadDateData(api, date, dateDir, force, maxConcurrent, server, env);
      && (listed.ListingRaised? ==> r == ErrorResult(dateDir, listed.cause))
      && (listed == Names([]) ==> r == ErrorResult(dateDir, NoFitsFilesFound))
      && (listed.Names? && listed.names != [] && maxConcurrent < 0 ==> r == ErrorResult(dateDir, SemaphoreRejected))
      && (listed.Names? && listed.names != [] && maxConcurrent >= 0 ==>
            && r.error.None? && r.total == |listed.names|
            && Counts(r.downloaded, r.skipped, r.failed) == Tally(ExpectedOutcomes(listed.names, env, force)))
  {
    var listed := FilesForDate(api, date, server);
    if listed.Names? && listed.names != [] && maxConcurrent >= 0 {
      DownloadDateDataCountsOutcomes(api, date, dateDir, force, maxConcurrent, server, env);
    }
  }

  /**
   * The module-level `download_date_data(date, base_url, ...)`: builds the
   * API from `base_url` and returns only the `success` field, which holds
   * exactly when the listing arrived, was not empty, the concurrency bound
   * was accepted, and no file failed.
   */
  function MirrorDate(baseUrl: string, date: string, dateDir: string, force: bool, maxConcurrent: int,
                      server: string -> Fetch, env: string -> FileEnv): (ok: bool)
    ensures var url := WithTrailingSlash(baseUrl) + date + "/";
      ok <==> && server(url).Fetched?
              && FitsFiles(server(url).page) != []
              && maxConcurrent >= 0
              && Tally(ExpectedOutcomes(FitsFiles(server(url).page), env, force)).failed == 0
  {
    var api := NewApi(baseUrl);
    var url := api.baseUrl + date + "/";
    if server(url).Fetched? && FitsFiles(server(url).page) != [] && maxConcurrent >= 0 then
      DownloadDateDataCountsOutcomes(api, date, dateDir, force, maxConcurrent, server, env);
      DownloadDateData(api, date, dateDir, force, maxConcurrent, server, env).success
    else
      DownloadDateData(api, date, dateDir, force, maxConcurrent, server, env).success
  }
}

=== FILE: outcomes.dfy ===
/**
 * Per-file outcomes of a mirror run and their aggregation into the
 * downloaded / skipped / failed counts both downloader variants report.
 */
module Outcomes {

  /** What happened to one listed file. */
  datatype FileOutcome = Skipped | Downloaded | Failed

  datatype Counts = Counts(downloaded: nat, skipped: nat, failed: nat) {

    function Total(): nat {
      downloaded + skipped + failed
    }

    /** One more file with outcome `o`: exactly one counter moves, by one. */
    function Add(o: FileOutcome): (c: Counts)
      ensures c.Total() == Total() + 1
    {
      match o
      case Skipped => this.(skipped := skipped + 1)
      case Downloaded => this.(downloaded := downloaded + 1)
      case Failed => this.(failed := failed + 1)
    }
  }

  /** Folds outcomes, in the order they arrive, into counts. */
  function Tally(os: seq<FileOutcome>): Counts
    decreases |os|
  {
    if |os| == 0 then Counts(0, 0, 0)
    else Tally(os[..|os| - 1]).Add(os[|os| - 1])
  }

  /**
   * Each counter is the number of occurrences of its outcome, so the
   * result does not depend on the order outcomes arrive in.
   */
  lemma {:induction false} TallyCountsOccurrences(os: seq<FileOutcome>)
    ensures Tally(os).downloaded == multiset(os)[Downloaded]
    ensures Tally(os).skipped == multiset(os)[Skipped]
    ensures Tally(os).failed == multiset(os)[Failed]
    decreases |os|
  {
    if |os| > 0 {
      var n := |os| - 1;
      TallyCountsOccurrences(os[..n]);
      assert os == os[..n] + [os[n]];
    }
  }

  /** Counting one more outcome moves its counter only. */
  lemma TallySnoc(os: seq<FileOutcome>, o: FileOutcome)
    ensures Tally(os + [o]) == Tally(os).Add(o)
  {
    assert (os + [o])[..|os|] == os;
  }

  /** Every file is counted exactly once. */
  lemma {:induction false} TallyConserves(os: seq<FileOutcome>)
    ensures Tally(os).Total() == |os|
    decreases |os|
  {
    if |os| > 0 {
      TallyConserves(os[..|os| - 1]);
    }
  }

  /**
   * Aggregation is insensitive to completion order: any reordering of the
   * same outcomes gives the same counts.
   */
  lemma TallyOrderIndependent(a: seq<FileOutcome>, b: seq<FileOutcome>)
    requires multiset(a) == multiset(b)
    ensures Tally(a) == Tally(b)
  {
    TallyCountsOccurrences(a);
    TallyCountsOccurrences(b);
  }

  /** A run in which every file is skipped counts only skips. */
  lemma TallyAllSkipped(os: seq<FileOutcome>)
    requires forall i :: 0 <= i < |os| ==> os[i] == Skipped
    ensures Tally(os) == Counts(0, |os|, 0)
  {
    TallyConserves(os);
    TallyCountsOccurrences(os);
    assert Downloaded !in multiset(os) && Failed !in multiset(os);
  }
}

=== FILE: remote.dfy ===
/**
 * What the mirroring logic learns from the outside world, as plain values:
 * the anchors of a parsed listing page, the outcome of fetching a page,
 * the answer to a HEAD probe, and what the local disk and the server say
 * about one file. The HTTP clients, the HTML parser and the filesystem
 * calls that produce these values are not modelled.
 */
module Remote {

  datatype Option<T> = None | Some(value: T)

  /**
   * A listing page after HTML parsing: either the page has no `<pre>`
   * block, or it has one and these are the `href` attributes of its
   * anchors in document order (`None` for an anchor without `href`).
   */
  datatype Page = NoPre | Pre(hrefs: seq<Option<string>>)

  /** The anchors the listing filters look at: none without a `<pre>` block. */
  function Links(page: Page): seq<Option<string>> {
    match page
    case NoPre => []
    case Pre(hrefs) => hrefs
  }

  /**
   * Fetching a listing page: either the page arrived with a success
   * status, or the request raised (transport error, non-2xx status, any
   * other exception), carrying the exception's text.
   */
  datatype Fetch = Fetched(page: Page) | FetchFailed(message: string)

  /**
   * A HEAD request for one file. `HeadFailed` covers every exception raised
   * while probing, including a `content-length` header that `int()` cannot
   * parse. `HeadResponse` is a response as the client returned it:
   * `success` is whether its status was 2xx, `contentLength` the parsed
   * header if present (it may be any integer, negative included).
   */
  datatype HeadProbe = HeadFailed | HeadResponse(success: bool, contentLength: Option<int>)

  /** `int(headers.get('content-length', 0))`: a missing header reads as 0. */
  function DeclaredLength(contentLength: Option<int>): int {
    match contentLength
    case None => 0
    case Some(n) => n
  }

  /**
   * Everything the per-file pipeline observes about one file name: whether
   * the local copy exists and its size in bytes, what a HEAD probe of the
   * remote file returns, whether a GET of it streams to disk without error,
   * and how many bytes such a successful GET writes (the body the server
   * sends, whatever its headers declared).
   */
  datatype FileEnv = FileEnv(localExists: bool, localSize: nat, head: HeadProbe, fetchOk: bool, written: nat)
}

=== FILE: sorting.dfy ===
/**
 * Python's `sorted` on a list of `str`, as an insertion sort under the
 * code-point order `Text.LexLe`. Because that order is total and
 * antisymmetric there is exactly one sorted permutation of any list, so
 * any correct sorting algorithm (Python's included) returns this one.
 */
module Sorting {
  import opened Text

  predicate Sorted(s: seq<string>) {
    forall i, j :: 0 <= i < j < |s| ==> LexLe(s[i], s[j])
  }

  /** Inserts `x` into a sorted list, keeping it sorted. */
  function Insert(x: string, s: seq<string>): (r: seq<string>)
    requires Sorted(s)
    ensures Sorted(r)
    ensures multiset(r) == multiset(s) + multiset{x}
    decreases |s|
  {
    if |s| == 0 then [x]
    else if LexLe(x, s[0]) then
      BelowHeadBoundsAll(x, s);
      SortedCons(x, s);
      [x] + s
    else
      SortedTail(s);
      var rest := Insert(x, s[1..]);
      HeadBoundsTail(s);
      LexLeTotal(x, s[0]);
      LowerBoundKept(s[0], x, s[1..], rest);
      SortedCons(s[0], rest);
      assert s == [s[0]] + s[1..];
      [s[0]] + rest
  }

  /** Anything at or below the head of a sorted list is below all of it. */
  lemma BelowHeadBoundsAll(x: string, s: seq<string>)
    requires Sorted(s) && |s| > 0 && LexLe(x, s[0])
    ensures forall y :: y in s ==> LexLe(x, y)
  {
    forall y | y in s
      ensures LexLe(x, y)
    {
      HeadIsLeast(s, y);
      LexLeTransitive(x, s[0], y);
    }
  }

  /** The head of a sorted list bounds its tail. */
  lemma HeadBoundsTail(s: seq<string>)
    requires Sorted(s) && |s| > 0
    ensures forall y :: y in s[1..] ==> LexLe(s[0], y)
  {
    forall y | y in s[1..]
      ensures LexLe(s[0], y)
    {
      HeadIsLeast(s, y);
    }
  }

  /** A sorted list stays sorted when an element below all of it is put in front. */
  lemma SortedCons(h: string, t: seq<string>)
    requires Sorted(t)
    requires forall y :: y in t ==> LexLe(h, y)
    ensures Sorted([h] + t)
  {
    var r := [h] + t;
    forall i, j | 0 <= i < j < |r|
      ensures LexLe(r[i], r[j])
    {
      assert r[j] == t[j - 1];
      if i > 0 {
        assert r[i] == t[i - 1];
      }
    }
  }

  /** A lower bound of `t` and of `x` bounds any permutation of `t` plus `x`. */
  lemma LowerBoundKept(lo: string, x: string, t: seq<string>, r: seq<string>)
    requires multiset(r) == multiset(t) + multiset{x}
    requires LexLe(lo, x)
    requires forall y :: y in t ==> LexLe(lo, y)
    ensures forall y :: y in r ==> LexLe(lo, y)
  {
    forall y | y in r
      ensures LexLe(lo, y)
    {
      assert y in multiset(r);
      if y != x {
        assert y in multiset(t);
      }
    }
  }

  /** `sorted(s)`: a sorted permutation of `s`. */
  function Sort(s: seq<string>): (r: seq<string>)
    ensures Sorted(r)
    ensures multiset(r) == multiset(s)
    ensures |r| == |s|
    decreases |s|
  {
    if |s| == 0 then []
    else
      var r := Insert(s[|s| - 1], Sort(s[..|s| - 1]));
      assert s == s[..|s| - 1] + [s[|s| - 1]];
      assert |r| == |multiset(r)|;
      r
  }

  /** The head of a sorted list is below every element. */
  lemma HeadIsLeast(a: seq<string>, x: string)
    requires Sorted(a) && x in a
    ensures LexLe(a[0], x)
  {
    var i :| 0 <= i < |a| && a[i] == x;
    if i == 0 {
      LexLeReflexive(x);
    }
  }

  /** Dropping the head of a sorted list leaves a sorted list. */
  lemma SortedTail(a: seq<string>)
    requires Sorted(a) && |a| > 0
    ensures Sorted(a[1..])
    ensures multiset(a[1..]) == multiset(a) - multiset{a[0]}
  {
    assert a == [a[0]] + a[1..];
  }

  /**
   * Two sorted permutations of the same list are equal: sorting under a
   * total order has a single correct answer.
   */
  lemma {:induction false} SortedPermutationUnique(a: seq<string>, b: seq<string>)
    requires Sorted(a) && Sorted(b)
    requires multiset(a) == multiset(b)
    ensures a == b
    decreases |a|
  {
    assert |a| == |multiset(a)| == |multiset(b)| == |b|;
    if |a| > 0 {
      SortedHeadsEqual(a, b);
      SortedTail(a);
      SortedTail(b);
      SortedPermutationUnique(a[1..], b[1..]);
      assert a == [a[0]] + a[1..] && b == [b[0]] + b[1..];
    }
  }

  /** Two non-empty sorted permutations of one list start with the same element. */
  lemma SortedHeadsEqual(a: seq<string>, b: seq<string>)
    requires Sorted(a) && Sorted(b) && |a| > 0 && |b| > 0
    requires multiset(a) == multiset(b)
    ensures a[0] == b[0]
  {
    assert a[0] in multiset(b) && b[0] in multiset(a);
    HeadIsLeast(b, a[0]);
    HeadIsLeast(a, b[0]);
    LexLeAntisymmetric(a[0], b[0]);
  }

  /** Sorting is characterised by its result being a sorted permutation. */
  lemma SortIsTheSortedPermutation(s: seq<string>, r: seq<string>)
    requires Sorted(r) && multiset(r) == multiset(s)
    ensures Sort(s) == r
  {
    SortedPermutationUnique(Sort(s), r);
  }
}

=== FILE: text.dfy ===
/**
 * String helpers shared by the listing filters and the argument checks:
 * suffix tests, ASCII digit tests, stripping trailing characters,
 * the code-point lexicographic order Python uses to compare `str`
 * values, and the decimal value of a digit string.
 */
module Text {

  /** `s.endswith(suffix)` */
  predicate EndsWith(s: string, suffix: string) {
    |suffix| <= |s| && s[|s| - |suffix|..] == suffix
  }

  /** An ASCII decimal digit. */
  predicate IsDigit(c: char) {
    '0' <= c <= '9'
  }

  /** Every character of `s` is an ASCII digit (vacuously true of ""). */
  predicate AllDigits(s: string) {
    forall i :: 0 <= i < |s| ==> IsDigit(s[i])
  }

  /** Exactly eight ASCII digits: the shape of a YYYYMMDD date name. */
  predicate IsDateName(s: string) {
    |s| == 8 && AllDigits(s)
  }

  /**
   * `s.rstrip(c)`: the longest prefix of `s` that does not end with `c`,
   * everything cut away being `c`.
   */
  function RStrip(s: string, c: char): (r: string)
    ensures |r| <= |s| && r == s[..|r|]
    ensures |r| == 0 || r[|r| - 1] != c
    ensures forall i :: |r| <= i < |s| ==> s[i] == c
    decreases |s|
  {
    if |s| > 0 && s[|s| - 1] == c then RStrip(s[..|s| - 1], c) else s
  }

  /** Appending `c` to a string is undone by stripping `c`. */
  lemma RStripAppended(s: string, c: char)
    requires |s| == 0 || s[|s| - 1] != c
    ensures RStrip(s + [c], c) == s
  {
    assert (s + [c])[..|s|] == s;
  }

  /**
   * Ensures `url` ends with a slash: the normalisation applied to a base
   * URL before any request is made.
   */
  function WithTrailingSlash(url: string): (r: string)
    ensures EndsWith(r, "/")
    ensures |url| <= |r| <= |url| + 1 && r[..|url|] == url
    ensures r == url <==> EndsWith(url, "/")
  {
    if EndsWith(url, "/") then url else url + "/"
  }

  /** Normalising a normalised URL changes nothing. */
  lemma WithTrailingSlashIdempotent(url: string)
    ensures WithTrailingSlash(WithTrailingSlash(url)) == WithTrailingSlash(url)
  {
  }

  /**
   * Python's `a <= b` on `str`: `a` is a prefix of `b`, or at the first
   * position where they differ `a` has the smaller code point.
   */
  predicate LexLe(a: string, b: string)
    decreases |a|
  {
    |a| == 0 || (|b| > 0 && (a[0] < b[0] || (a[0] == b[0] && LexLe(a[1..], b[1..]))))
  }

  lemma {:induction false} LexLeReflexive(a: string)
    ensures LexLe(a, a)
    decreases |a|
  {
    if |a| > 0 {
      LexLeReflexive(a[1..]);
    }
  }

  lemma {:induction false} LexLeAntisymmetric(a: string, b: string)
    requires LexLe(a, b) && LexLe(b, a)
    ensures a == b
    decreases |a|
  {
    if |a| > 0 {
      assert |b| > 0 && a[0] == b[0];
      LexLeAntisymmetric(a[1..], b[1..]);
      assert a == [a[0]] + a[1..] && b == [b[0]] + b[1..];
    }
  }

  lemma {:induction false} LexLeTransitive(a: string, b: string, c: string)
    requires LexLe(a, b) && LexLe(b, c)
    ensures LexLe(a, c)
    decreases |a|
  {
    if |a| > 0 && a[0] == b[0] && b[0] == c[0] {
      LexLeTransitive(a[1..], b[1..], c[1..]);
    }
  }

  lemma {:induction false} LexLeTotal(a: string, b: string)
    ensures LexLe(a, b) || LexLe(b, a)
    decreases |a|
  {
    if |a| > 0 && |b| > 0 && a[0] == b[0] {
      LexLeTotal(a[1..], b[1..]);
    }
  }

  /** Numeric value of an ASCII digit. */
  function DigitValue(c: char): (v: nat)
    requires IsDigit(c)
    ensures v < 10
  {
    c as int - '0' as int
  }

  function Pow10(n: nat): (p: nat)
    ensures p >= 1
  {
    if n == 0 then 1 else 10 * Pow10(n - 1)
  }

  /**
   * The number a string of decimal digits denotes, read from the front:
   * the leading digit weighs 10^(number of digits after it).
   */
  function DecimalValue(s: string): (v: nat)
    requires AllDigits(s)
    ensures v < Pow10(|s|)
    decreases |s|
  {
    if |s| == 0 then 0
    else
      var rest := DecimalValue(s[1..]);
      var d := DigitValue(s[0]);
      LeadingDigitBound(d, Pow10(|s| - 1), rest);
      d * Pow10(|s| - 1) + rest
  }

  /** A digit followed by fewer than k digits' worth stays below ten times k's power. */
  lemma LeadingDigitBound(d: nat, p: nat, rest: nat)
    requires d < 10 && rest < p
    ensures d * p + rest < 10 * p
  {
    assert d * p <= 9 * p;
  }

  /** A smaller leading digit wins whatever the remaining digits are. */
  lemma LeadingDigitDominates(d: nat, e: nat, p: nat, x: nat, y: nat)
    requires d < e && x < p && y < p
    ensures d * p + x < e * p + y
  {
    assert (d + 1) * p <= e * p;
  }

  /**
   * On digit strings of equal length, string order is numeric order: this
   * is why sorting YYYYMMDD names as strings sorts them by date.
   */
  lemma {:induction false} LexLeIsNumericOrder(a: string, b: string)
    requires |a| == |b| && AllDigits(a) && AllDigits(b)
    ensures LexLe(a, b) <==> DecimalValue(a) <= DecimalValue(b)
    decreases |a|
  {
    if |a| > 0 {
      var p := Pow10(|a| - 1);
      var da, db := DigitValue(a[0]), DigitValue(b[0]);
      var ra, rb := DecimalValue(a[1..]), DecimalValue(b[1..]);
      assert ra < p && rb < p;
      if da < db {
        LeadingDigitDominates(da, db, p, ra, rb);
        assert a[0] < b[0];
      } else if db < da {
        LeadingDigitDominates(db, da, p, rb, ra);
        assert b[0] < a[0];
      } else {
        assert a[0] == b[0];
        LexLeIsNumericOrder(a[1..], b[1..]);
      }
    }
  }
}
